=== FILE: README.md ===
# PyTranslateScraper link handling, in Dafny

PyTranslateScraper mirrors one web page and the same-site pages it links to.
It renders each page in a headless browser, machine-translates its text and
saves it as a local `.html` file. It then rewrites the root page's links so
that the mirror can be browsed offline. This project models the part of
`utils.py` that decides which links are crawled, which file each page is
saved under, and how anchors are pointed at those files. It proves that
these decisions agree with each other.

Modules, one per concern of `utils.py`:

- `Strings` (`strings.dfy`): Python's `sub in s` (`Contains`) and `s.replace(pat, rep)` (`ReplaceAll`) written out on `seq<char>`. Replacement is non-overlapping and left to right, and an empty pattern inserts the replacement around every character, as in Python.
- `Dom` (`dom.dfy`): the parts of a parsed page the core touches.
  - A page is its head's script tags (absent when the document has no `<head>`), the other script tags, and its anchors.
  - Every `href` and `src` is optional.
  - `Error` holds the three exceptions the core raises itself.
- `Naming` (`naming.dfy`): the file name of `save_html_content`, i.e. `/` turned into `_` and `.html` appended.
- `Links` (`links.dfy`): `extract_href_links`, as its four stages and, equivalently, anchor by anchor (`LinkOf`). Also the per-anchor rewrite of `preprocess_anchor_src` (`RewriteHref`, `RewriteLinks`).
- `Scripts` (`scripts.dfy`): `extract_js_files`, and the page `scrap_translate_webpage` saves after `include_js_files` (`ScrapedPage`).
- `Soups` (`soup.dfy`): the parsed page as the mutable object it is in the source (`class Soup`).
  - `IncludeJsFiles` appends to the head in a loop.
  - `RewriteAnchors` assigns to the anchors, held in an array, one at a time.
  - Both are proved against the functions of `Scripts` and `Links`.
- `Crawl` (`crawl.dfy`): the working directory as a map from file name to saved page (`class Workdir`).
  - Its methods implement `save_html_content`, `scrap_translate_webpage`, `preprocess_anchor_src` and `perform_one_layer_depth_and_get_links`.
  - Each is proved equal to a function over the map (`Scrape`, `Preprocess`, `FanOut`, `OneLayer`).
  - Lemmas about those functions state what files a crawl leaves behind, that every rewritten link names a file of the mirror, and when that file holds another page.

Rendering and translation are one parameter, `render: string -> Page`: the page obtained for a URL. Translation only replaces text nodes, and the page model has none, so it has no further effect here.

Behaviour of the code that the model keeps and the lemmas make explicit:

- Emptiness comes before stripping (utils.py:93-94). An href equal to the site URL therefore yields the link `""` (`SiteUrlContributesEmptyLink`). The crawl then saves the site root again as `.html`, and the rewriter leaves that anchor's href as it was.
- The site URL is removed wherever it occurs in an href, not only as a prefix, because `str.replace` replaces every occurrence (`ReplaceAfterFree`, `StripSiteInMiddle`; `/r?u=https://site.com/about` becomes `/r?u=/about`, `StripSiteInMiddleExample`).
- The external-link test is a substring test: a relative path such as `/http-status` is dropped (`RelativeHttpPathDropped`). The `"https"` test is subsumed by the `"http"` one (`HttpsTestIsRedundant`).
- The extractor skips an anchor without an href. The rewriter instead raises on the first such anchor: anchors before it are already rewritten in memory and nothing is written (`Soups.Soup.RewriteAnchors`, `Preprocess`).
- File names are not collision-free: `/a` and `_a` are both saved as `_a.html` (`FileNamesCollide`).
- The root page is saved as `test.html`. A link `test` is extracted from the root page, and its own page is then saved as `test.html`, overwriting the root page after its links were extracted and before `preprocess_anchor_src` reads `test.html` back (utils.py:103); the rewriter then rewrites the linked page instead of the root. The theorem `OneLayerLinksResolve` therefore assumes there is no such link. A final page named `test` would be written and then deleted, so the theorem assumes a different name as well.
- The final page can overwrite a linked page: with final page `_about` and a link `/about`, both are saved as `_about.html`, and `preprocess_anchor_src` (utils.py:118-119) writes the rewritten root page over the `/about` page. The root anchor for `/about` then points at the root page itself (`FinalPageOverwritesLinkFile`). `OneLayerLinksResolve` states that every link's file exists, not what it holds, so it still holds in this case.
- `include_js_files` appends a new tag for every source, including sources already in the head, so the saved page lists each source twice as often as before (`ScrapedPageListsSourcesTwice`).
- `preprocess_anchor_src` does not sanitise its own `src` and `dst` names. `save_html_content` does.

## Model

| member | source | states |
|---|---|---|
| Strings.ReplaceAll | utils.py:94 | Python's `str.replace`: a string without the (non-empty) pattern comes back unchanged, and deleting a pattern never lengthens the string |
| Strings.Contains | utils.py:96 | Python's `sub in s`: `sub` starts some suffix of `s`; its index-based partner is `ContainsIffOccurs` |
| Strings.ContainsIffOccurs | utils.py:96 | the recursive `sub in s` holds exactly when `sub` occurs in `s` at some index |
| Strings.ContainsPrefixOf | utils.py:96 | a string containing `sub` contains every prefix of `sub` |
| Strings.ReplaceCharIsMapChar | utils.py:57 | replacing one character by another with `str.replace` maps that character position by position |
| Strings.ReplaceEmptyByEmpty | utils.py:94 | deleting the empty string (an empty site URL) leaves the href unchanged |
| Strings.ReplaceLeading | utils.py:94 | a leading occurrence of the pattern is replaced and the scan goes on after it |
| Strings.ReplaceAfterFree | utils.py:94 | an occurrence of the pattern after a stretch free of it is replaced as well: the stretch is copied, the occurrence replaced, and the scan goes on after it |
| Strings.NotContainsBeforeOccurrence | utils.py:94 | a stretch none of whose characters starts the pattern, followed by all but the last character of the pattern, does not contain the pattern |
| Naming.SanitizeStem | utils.py:57 | same length as `dst`, every `/` becomes `_`, every other character is kept, no `/` is left |
| Naming.FileName | utils.py:57-61 | the written file name has no `/`, ends in `.html` and is five characters longer than `dst` |
| Naming.SanitizeIdempotent | utils.py:57 | sanitising twice equals sanitising once |
| Naming.SanitizeKeepsSlashFree | utils.py:57 | a name without `/` is left as it is |
| Naming.FileNameResanitised | utils.py:57-61 | re-sanitising a produced file name is a no-op |
| Naming.FileNamesCollide | utils.py:57 | `/a` and `_a` are different destinations with the same file name |
| Naming.FileNameOnlyFromItself | utils.py:57-61 | a destination free of `/` and `_` shares its file name with no other destination |
| Links.HasExternalMarker | utils.py:96 | the substring test for `https`, `http` or `mailto`; `HttpsTestIsRedundant` reduces it to two substrings |
| Links.Strip | utils.py:94 | `href.replace(website_url, "")`; `StripSitePrefix` and `StripSiteInMiddle` state what it removes |
| Links.HttpsTestIsRedundant | utils.py:96 | the three-substring test holds exactly when the string contains `http` or `mailto` |
| Links.PresentHrefs | utils.py:93 | the collected hrefs number at most the anchors, and none is empty |
| Links.StripAll | utils.py:94 | stage two: every collected href with the site URL deleted, in order (`StripAllSnoc` gives the step, `ExtractHrefLinksExact` the result) |
| Links.IsNotRoot | utils.py:95 | the test of stage three: the stripped href is not `/` |
| Links.IsNotExternal | utils.py:96 | the test of stage four: no `https`, `http` or `mailto` substring |
| Links.IsSameSite | utils.py:95-96 | both tests together: what survives stages three and four |
| Links.KeepSameSite | utils.py:95-96 | stages three and four applied in turn; `KeepSameSiteSnoc` shows an element is kept exactly when `IsSameSite` holds of it |
| Links.Filter | utils.py:95-96 | a list comprehension with a condition: no longer than its input, and an element is in the result exactly when it is in the input and passes |
| Links.ExtractHrefLinks | utils.py:91-98 | at most one link per anchor; no link is `/` or contains `https`, `http` or `mailto` |
| Links.LinkOf | utils.py:93-96 | the link one anchor contributes: none for a missing or empty href, otherwise the stripped href when it is neither `/` nor external; `ExtractIsPerAnchor` proves the pipeline is these contributions in order |
| Links.ExtractIsPerAnchor | utils.py:91-98 | the four-stage pipeline equals the concatenation, in anchor order, of each anchor's own contribution |
| Links.LinksOfIndexed | utils.py:91-98 | the contributing anchors' indices are increasing, the k-th link comes from the k-th of them, and an anchor is listed exactly when it contributes |
| Links.ExtractHrefLinksExact | utils.py:91-98 | the k-th link is the stripped href of the k-th anchor whose href is present, non-empty and same-site after stripping; an anchor is represented exactly when it meets that test |
| Links.SiteUrlContributesEmptyLink | utils.py:93-94 | an href equal to the site URL yields the link `""`; an empty or missing href yields none |
| Links.StripSiteInMiddle | utils.py:94 | the site URL inside an href is deleted, keeping what precedes it, when no character of that part starts the site URL |
| Links.StripSiteInMiddleExample | utils.py:94 | under `https://site.com`, the href `/r?u=https://site.com/about` is stripped to `/r?u=/about` |
| Links.StripSitePrefix | utils.py:94 | the site URL followed by a path not mentioning it is stripped to the path |
| Strings.NotContainsWithoutFirstChar | utils.py:96 | a string lacking the first character of `sub` does not contain `sub` |
| Strings.NotContainsLonger | utils.py:96 | a string does not contain any longer string |
| Links.RelativeHttpPathDropped | utils.py:96 | the relative path `/http-status` under `https://site.com` is dropped by the substring test |
| Links.RelativePathIsItsOwnLink | utils.py:93-96 | a non-empty relative path other than `/`, free of the site URL and of the markers, is its own link |
| Links.SiteUrlNotInExternalUrl | utils.py:94 | `https://site.com` does not occur in `https://external.com` |
| Links.ForeignUrlDropped | utils.py:94-96 | an href starting with `http` that does not mention the site URL is dropped |
| Links.AboutKept | utils.py:93-96 | `/about` under `https://site.com` is kept as `/about` |
| Links.TeamKept | utils.py:93-96 | `/team` under `https://site.com` is kept as `/team` |
| Links.ExampleExternalDropped | utils.py:93-96 | `https://external.com` under `https://site.com` is dropped |
| Links.ExtractOfThree | utils.py:91-98 | the links of three anchors are the first's, then the second's, then the third's |
| Links.ExtractExample | utils.py:91-98 | anchors `/about`, `https://external.com`, `/team` under `https://site.com` give `["/about", "/team"]`, in that order |
| Links.IsLocalTarget | utils.py:111 | the rewriter's test on a stripped href: non-empty, not `/`, no external marker, i.e. a non-empty same-site link |
| Links.RewriteHref | utils.py:109-114 | the href an anchor is left with: the file name of the stripped href when that is a local target, otherwise the original, unstripped href; `RewriteMatchesExtraction` ties it to `LinkOf` |
| Links.RewriteAnchor | utils.py:109-114 | the anchor after the loop visited it, carrying `RewriteHref` of its href |
| Links.RewriteLinks | utils.py:108-114 | the anchor loop on a whole page: fails when some anchor has no href, otherwise every anchor is rewritten; its partners are `RewriteLinksResolveExtractedLinks` and the loop `Soups.Soup.RewriteAnchors` |
| Links.FirstMissingHref | utils.py:108-110 | the index where the anchor loop raises: every anchor before it has an href, and the anchor at it has none |
| Links.RewriteMatchesExtraction | utils.py:93-114 | an anchor is redirected exactly when it contributes a non-empty link `p`, and then to `FileName(p)`, which has no `/` and ends in `.html`; every other anchor keeps its original, unstripped href |
| Links.RewriteExample | utils.py:108-114 | under `https://site.com`, `/about` becomes `_about.html` and `https://external.com` stays as it is |
| Links.RewriteLinksResolveExtractedLinks | utils.py:91-114 | the rewrite fails exactly when some anchor has no href; otherwise the anchor behind every non-empty extracted link `p` now points at `FileName(p)`, and every other anchor is unchanged |
| Scripts.ExtractJsFiles | utils.py:27-31 | at most one source per script tag, none empty; `ExtractJsFilesMembers` states that a source is listed exactly when some tag carries it non-empty |
| Scripts.ExtractJsFilesMembers | utils.py:29 | a string is extracted exactly when some script tag has it as a non-empty `src`; tags without one contribute nothing |
| Scripts.ScrapedPageWithoutSources | utils.py:27-39 | a page whose script tags all lack a non-empty `src` is saved unchanged, even without a head |
| Dom.AllScripts | utils.py:29 | `find_all("script")`: the head's script tags, then the others, in document order |
| Scripts.ScriptTagsFor | utils.py:37-38 | one new tag per source |
| Scripts.ScrapedPage | utils.py:27-39 | fails exactly when there is a source to append and the page has no head; on success the anchors and body scripts are unchanged and the head is still present |
| Scripts.ExtractJsFilesAppend | utils.py:29 | extraction distributes over concatenation of tag lists |
| Scripts.ExtractIncludedRoundTrip | utils.py:27-39 | extracting from the tags created for non-empty sources gives those sources back |
| Scripts.ScrapedPageListsSourcesTwice | utils.py:77-79 | after the script step every source appears twice as often as before: once from its own tag, once from the appended one |
| Soups.Soup.Parse | utils.py:105 | the parsed soup represents the page it was parsed from |
| Soups.Soup.IncludeJsFiles | utils.py:34-39 | appends one tag per source, in order, to the head; raises `MissingHead` when there is no head and a source to append; changes nothing else |
| Soups.Soup.RewriteAnchors | utils.py:108-114 | anchors before the first missing href are rewritten by `RewriteAnchor`, the rest are untouched, and the outcome is a failure exactly when an href is missing; on success the array equals `RewriteLinks` of the old anchors |
| Crawl.Scrape | utils.py:70-88 | the page rendered at `src`, after the script step, stored under `FileName(dst)`, or the script step's failure with nothing written; `ScrapeWrites` states its effect on the files |
| Crawl.FanOut | utils.py:135-137 | one scrape per link, in order, stopping at the first failure; `FanOutStopsAtFailure`, `FanOutWrites` and `FanOutLeavesOthers` state its effect |
| Crawl.Preprocess | utils.py:101-120 | read `src.html`, rewrite its anchors, write `dst.html`, remove `src.html`, failing on a missing file or href; `PreprocessWritesFinalPage` states its effect |
| Crawl.OneLayer | utils.py:123-140 | scrape the root to `test.html`, read it back, fan out over its extracted links, then rewrite it to the final page; `OneLayerOutputFiles` and `OneLayerLinksResolve` state the result |
| Crawl.ScrapeWrites | utils.py:70-88 | a successful scrape adds exactly the file for `dst`; a failed one changes nothing; other files keep their pages |
| Crawl.Workdir.constructor | utils.py:123 | the working directory as it stands before the crawl starts; it stands for no line of the source, the cited line is only the crawl's entry |
| Crawl.Workdir.SaveHtmlContent | utils.py:55-62 | the page is stored under `FileName(dst)`, replacing any earlier file; no other file changes |
| Crawl.Workdir.ScrapTranslateWebpage | utils.py:70-88 | outcome and files equal `Scrape` of the old files |
| Crawl.Workdir.PreprocessAnchorSrc | utils.py:101-120 | outcome and files equal `Preprocess` of the old files: a missing `src.html` or a missing href fails with nothing written; otherwise the rewritten page is saved as `dst.html` and `src.html` is removed |
| Crawl.Workdir.PerformOneLayer | utils.py:123-140 | outcome and files equal `OneLayer` of the old files: scrape the root to `test.html`, read it back, scrape each extracted link in order, stopping at the first failure, then rewrite to the final page |
| Crawl.FanOutStopsAtFailure | utils.py:135-137 | once a link's scrape fails, the later links change nothing |
| Crawl.SavedNamesMembers | utils.py:135-137 | the names the fan-out saves are exactly the file names of the links |
| Crawl.FanOutKeepsFiles | utils.py:135-137 | the fan-out never removes a file |
| Crawl.FanOutWrites | utils.py:135-137 | a successful fan-out adds exactly the files named after the links |
| Crawl.FanOutLeavesOthers | utils.py:135-137 | every file not named after a link keeps its page through the fan-out |
| Crawl.RootSavedUnderIntermediateName | utils.py:124-130 | the root page is saved under the very name it is read back from, `test.html` |
| Crawl.OneLayerOutputFiles | utils.py:123-140 | after a successful crawl the files are the old ones, one per extracted link and the final page, minus `test.html` |
| Crawl.OneLayerFailureKeepsIntermediate | utils.py:101-140 | a crawl that fails after the root page was saved leaves `test.html` behind |
| Crawl.PreprocessWritesFinalPage | utils.py:101-120 | a successful rewrite needed `test.html`, writes the rewritten root page under the final name and removes `test.html` |
| Crawl.FanOutKeepsRoot | utils.py:127-137 | when no link is `test`, the fan-out leaves the saved root page as it was, and `test.html` is not among the saved names |
| Crawl.FinalPageOverwritesLinkFile | utils.py:118-119 | when a link's file name equals the final page's, that file ends up holding the rewritten root page, not the linked page |
| Crawl.OneLayerLinksResolve | utils.py:123-140 | after a successful crawl with no link `test` and a final page not named `test`, every root anchor had an href, the anchor behind every non-empty link `p` points at `FileName(p)`, that file exists, and every other anchor, including the one behind an empty link, is unchanged |

## Left out

- Browser automation (utils.py:8-17, 65-67) and HTML parsing and serialisation (utils.py:20-24, 60, 105, 117): the page is given by the `render` parameter and stored as a `Page` value, not as HTML text.
- `translate_html_file` (utils.py:42-52) calls a network translation service on text nodes. The page model has no text nodes, so translation is the identity on it and is folded into `render`.
- The file system is a map from file name to page. Encodings, permissions and I/O errors other than a missing file are not modelled.
- Exceptions from the browser, the parser or the translation service are not modelled: `render` always returns a page.
- The `tqdm` progress bar (utils.py:135) has no effect on the result and is omitted.
- The `translated_lang` parameter only reaches the translation service and is omitted.
- Crawl.Workdir.PerformOneLayer: does not model that the original `render` of a URL may differ between calls. `render` is a function, so the same URL gives the same page.

=== FILE: crawl.dfy ===
/** The one-layer crawl of `perform_one_layer_depth_and_get_links`: the root
    page is scraped to an intermediate file, each same-site link of it is
    scraped to the file named after the link, and finally the root page's
    anchors are pointed at those files, written under the final name, and the
    intermediate file is deleted. */
module Crawl {
  import opened Strings
  import opened Dom
  import opened Naming
  import opened Links
  import opened Scripts
  import opened Soups

  /** The stem of the intermediate file the root page is saved under. */
  const PROCESSED_PAGE := "test"

  /** The outcome of a run and the files present afterwards. */
  datatype Run = Run(outcome: Outcome, files: map<string, Page>)

  /** `scrap_translate_webpage(src, dst)`: the page rendered at `src`, with its
      script tags re-included, saved under `FileName(dst)`. */
  function Scrape(files: map<string, Page>, src: string, dst: string, render: string -> Page): Run {
    match ScrapedPage(render(src))
    case Ok(page) => Run(Pass, files[FileName(dst) := page])
    case Err(e) => Run(Fail(e), files)
  }

  /** A successful scrape writes exactly the file named after `dst`; a failed
      one writes nothing. Either way no other file changes. */
  lemma ScrapeWrites(files: map<string, Page>, src: string, dst: string, render: string -> Page)
    ensures var after := Scrape(files, src, dst, render).files;
      (Scrape(files, src, dst, render).outcome.Pass? ==> after.Keys == files.Keys + {FileName(dst)}) &&
      (Scrape(files, src, dst, render).outcome.Fail? ==> after == files) &&
      (forall n :: n in files && n != FileName(dst) ==> n in after && after[n] == files[n])
  {
  }

  /** The fan-out loop over `links`: one scrape per link, in order, stopping at
      the first failure. */
  function FanOut(files: map<string, Page>, siteUrl: string, links: seq<string>, render: string -> Page): Run {
    if links == [] then Run(Pass, files)
    else
      var done := FanOut(files, siteUrl, links[..|links| - 1], render);
      var link := links[|links| - 1];
      if done.outcome.Fail? then done else Scrape(done.files, siteUrl + link, link, render)
  }

  /** `preprocess_anchor_src(src, dst)`: reads `src.html`, rewrites its anchors,
      writes the result to `dst.html` and deletes `src.html`. Neither name is
      sanitised here. */
  function Preprocess(files: map<string, Page>, src: string, dst: string, siteUrl: string): Run {
    var name := src + HTML_SUFFIX;
    if name !in files then Run(Fail(FileNotFound(name)), files)
    else
      var page := files[name];
      match RewriteLinks(page.anchors, siteUrl)
      case Ok(anchors) => Run(Pass, files[dst + HTML_SUFFIX := page.(anchors := anchors)] - {name})
      case Err(e) => Run(Fail(e), files)
  }

  /** The whole crawl. */
  function OneLayer(files: map<string, Page>, siteUrl: string, finalPage: string, render: string -> Page): Run {
    var root := Scrape(files, siteUrl, PROCESSED_PAGE, render);
    var rootName := PROCESSED_PAGE + HTML_SUFFIX;
    if root.outcome.Fail? then root
    else if rootName !in root.files then Run(Fail(FileNotFound(rootName)), root.files)
    else
      var links := ExtractHrefLinks(root.files[rootName].anchors, siteUrl);
      var fanned := FanOut(root.files, siteUrl, links, render);
      if fanned.outcome.Fail? then fanned
      else Preprocess(fanned.files, PROCESSED_PAGE, finalPage, siteUrl)
  }

  /** The working directory: the pages saved so far, by file name. */
  class Workdir {
    var files: map<string, Page>

    constructor (files: map<string, Page>)
      ensures this.files == files
    {
      this.files := files;
    }

    /** `save_html_content`: writes `page` to the sanitised name of `dst`,
        replacing any file of that name. */
    method SaveHtmlContent(page: Page, dst: string)
      modifies this
      ensures files == old(files)[FileName(dst) := page]
    {
      var stem := ReplaceAll(dst, "/", "_");
      files := files[stem + HTML_SUFFIX := page];
    }

    /** `scrap_translate_webpage`: renders `src`, re-includes its scripts and
        saves it under `dst`. Rendering and translation are `render`. */
    method ScrapTranslateWebpage(src: string, dst: string, render: string -> Page) returns (o: Outcome)
      modifies this
      ensures Run(o, files) == Scrape(old(files), src, dst, render)
    {
      var soup := new Soup.Parse(render(src));
      var jsFiles := ExtractJsFiles(AllScripts(soup.ToPage()));
      o := soup.IncludeJsFiles(jsFiles);
      if o.Fail? {
        return;
      }
      SaveHtmlContent(soup.ToPage(), dst);
    }

    /** `preprocess_anchor_src`. */
    method PreprocessAnchorSrc(src: string, dst: string, siteUrl: string) returns (o: Outcome)
      modifies this
      ensures Run(o, files) == Preprocess(old(files), src, dst, siteUrl)
    {
      var name := src + HTML_SUFFIX;
      if name !in files {
        return Fail(FileNotFound(name));
      }
      var soup := new Soup.Parse(files[name]);
      o := soup.RewriteAnchors(siteUrl);
      if o.Fail? {
        return;
      }
      files := files[dst + HTML_SUFFIX := soup.ToPage()];
      files := files - {name};
    }

    /** `perform_one_layer_depth_and_get_links`. */
    method PerformOneLayer(siteUrl: string, finalPage: string, render: string -> Page) returns (o: Outcome)
      modifies this
      ensures Run(o, files) == OneLayer(old(files), siteUrl, finalPage, render)
    {
      o := ScrapTranslateWebpage(siteUrl, PROCESSED_PAGE, render);
      if o.Fail? {
        return;
      }
      var rootName := PROCESSED_PAGE + HTML_SUFFIX;
      if rootName !in files {
        return Fail(FileNotFound(rootName));
      }
      var links := ExtractHrefLinks(files[rootName].anchors, siteUrl);
      ghost var rooted := files;
      var i := 0;
      while i < |links|
        invariant 0 <= i <= |links|
        invariant FanOut(rooted, siteUrl, links[..i], render) == Run(Pass, files)
      {
        FanOutStep(rooted, siteUrl, links, i, render);
        o := ScrapTranslateWebpage(siteUrl + links[i], links[i], render);
        if o.Fail? {
          assert FanOut(rooted, siteUrl, links, render) == Run(o, files) by {
            FanOutStopsAtFailure(rooted, siteUrl, links, i + 1, render);
          }
          return;
        }
        i := i + 1;
      }
      assert links[..i] == links;
      o := PreprocessAnchorSrc(PROCESSED_PAGE, finalPage, siteUrl);
    }
  }

  /** Scraping link `i` after the first `i` links succeeded extends the fan-out by one step. */
  lemma FanOutStep(files: map<string, Page>, siteUrl: string, links: seq<string>, i: nat, render: string -> Page)
    requires i < |links|
    requires FanOut(files, siteUrl, links[..i], render).outcome.Pass?
    ensures FanOut(files, siteUrl, links[..i + 1], render) ==
      Scrape(FanOut(files, siteUrl, links[..i], render).files, siteUrl + links[i], links[i], render)
  {
    var next := links[..i + 1];
    assert next[..|next| - 1] == links[..i];
    assert next[|next| - 1] == links[i];
  }

  /** Once the fan-out fails, later links are not scraped. */
  lemma {:induction false} FanOutStopsAtFailure(files: map<string, Page>, siteUrl: string, links: seq<string>, n: nat, render: string -> Page)
    requires n <= |links|
    requires FanOut(files, siteUrl, links[..n], render).outcome.Fail?
    ensures FanOut(files, siteUrl, links, render) == FanOut(files, siteUrl, links[..n], render)
    decreases |links| - n
  {
    if n < |links| {
      var init := links[..|links| - 1];
      assert init[..n] == links[..n];
      FanOutStopsAtFailure(files, siteUrl, init, n, render);
    } else {
      assert links[..n] == links;
    }
  }

  /** The file names the fan-out writes for `links`. */
  function SavedNames(links: seq<string>): set<string> {
    if links == [] then {} else SavedNames(links[..|links| - 1]) + {FileName(links[|links| - 1])}
  }

  /** The saved names are exactly the file names of the links. */
  lemma {:induction false} SavedNamesMembers(links: seq<string>)
    ensures forall k :: 0 <= k < |links| ==> FileName(links[k]) in SavedNames(links)
    ensures forall n :: n in SavedNames(links) ==> exists k :: 0 <= k < |links| && n == FileName(links[k])
    decreases |links|
  {
    if links != [] {
      var init := links[..|links| - 1];
      SavedNamesMembers(init);
      assert forall k :: 0 <= k < |init| ==> init[k] == links[k];
    }
  }

  /** The fan-out never deletes a file. */
  lemma {:induction false} FanOutKeepsFiles(files: map<string, Page>, siteUrl: string, links: seq<string>, render: string -> Page)
    ensures files.Keys <= FanOut(files, siteUrl, links, render).files.Keys
    decreases |links|
  {
    if links != [] {
      FanOutKeepsFiles(files, siteUrl, links[..|links| - 1], render);
    }
  }

  /** A successful fan-out adds exactly the files named after the links. */
  lemma {:induction false} FanOutWrites(files: map<string, Page>, siteUrl: string, links: seq<string>, render: string -> Page)
    requires FanOut(files, siteUrl, links, render).outcome.Pass?
    ensures FanOut(files, siteUrl, links, render).files.Keys == files.Keys + SavedNames(links)
    decreases |links|
  {
    if links == [] {
      assert SavedNames(links) == {};
    } else {
      var init, link := links[..|links| - 1], links[|links| - 1];
      var done := FanOut(files, siteUrl, init, render);
      assert done.outcome.Pass?;
      FanOutWrites(files, siteUrl, init, render);
      var after := FanOut(files, siteUrl, links, render);
      assert after == Scrape(done.files, siteUrl + link, link, render);
      ScrapeWrites(done.files, siteUrl + link, link, render);
      assert after.files.Keys == files.Keys + SavedNames(init) + {FileName(link)};
    }
  }

  /** A fan-out leaves every file not named after a link as it was. */
  lemma {:induction false} FanOutLeavesOthers(files: map<string, Page>, siteUrl: string, links: seq<string>, render: string -> Page)
    ensures forall n :: n in files && n !in SavedNames(links) ==>
      n in FanOut(files, siteUrl, links, render).files && FanOut(files, siteUrl, links, render).files[n] == files[n]
    decreases |links|
  {
    if links != [] {
      var init, link := links[..|links| - 1], links[|links| - 1];
      var done := FanOut(files, siteUrl, init, render);
      FanOutLeavesOthers(files, siteUrl, init, render);
      ScrapeWrites(done.files, siteUrl + link, link, render);
    }
  }

  /** The root page lands in the intermediate file, whose name needs no sanitising. */
  lemma RootSavedUnderIntermediateName()
    ensures FileName(PROCESSED_PAGE) == PROCESSED_PAGE + HTML_SUFFIX
  {
    SanitizeKeepsSlashFree(PROCESSED_PAGE);
  }

  /** After a successful crawl the directory holds the files it held before,
      one file per extracted link and the final page, and no longer the
      intermediate file. */
  lemma OneLayerOutputFiles(files: map<string, Page>, siteUrl: string, finalPage: string, render: string -> Page)
    requires OneLayer(files, siteUrl, finalPage, render).outcome.Pass?
    ensures var links := ExtractHrefLinks(render(siteUrl).anchors, siteUrl);
      OneLayer(files, siteUrl, finalPage, render).files.Keys ==
        (files.Keys + SavedNames(links) + {finalPage + HTML_SUFFIX}) - {PROCESSED_PAGE + HTML_SUFFIX}
  {
    RootSavedUnderIntermediateName();
    var root := Scrape(files, siteUrl, PROCESSED_PAGE, render);
    var rootName := PROCESSED_PAGE + HTML_SUFFIX;
    var links := ExtractHrefLinks(render(siteUrl).anchors, siteUrl);
    assert root.files[rootName].anchors == render(siteUrl).anchors;
    FanOutWrites(root.files, siteUrl, links, render);
  }

  /** A crawl that fails after the root page was saved leaves the intermediate
      file in place: it is deleted only on success. */
  lemma OneLayerFailureKeepsIntermediate(files: map<string, Page>, siteUrl: string, finalPage: string, render: string -> Page)
    requires ScrapedPage(render(siteUrl)).Ok?
    requires OneLayer(files, siteUrl, finalPage, render).outcome.Fail?
    ensures PROCESSED_PAGE + HTML_SUFFIX in OneLayer(files, siteUrl, finalPage, render).files
  {
    RootSavedUnderIntermediateName();
    var rootName := PROCESSED_PAGE + HTML_SUFFIX;
    var root := Scrape(files, siteUrl, PROCESSED_PAGE, render);
    assert root.outcome.Pass? && rootName in root.files;
    var links := ExtractHrefLinks(root.files[rootName].anchors, siteUrl);
    var fanned := FanOut(root.files, siteUrl, links, render);
    FanOutKeepsFiles(root.files, siteUrl, links, render);
    assert rootName in fanned.files;
    if fanned.outcome.Pass? {
      var done := Preprocess(fanned.files, PROCESSED_PAGE, finalPage, siteUrl);
      assert OneLayer(files, siteUrl, finalPage, render) == done;
      assert done.files == fanned.files;
    } else {
      assert OneLayer(files, siteUrl, finalPage, render) == fanned;
    }
  }

  /** A successful rewrite of the intermediate file writes the rewritten
      root page under the final name and removes the intermediate file. */
  lemma PreprocessWritesFinalPage(files: map<string, Page>, finalPage: string, siteUrl: string)
    requires Preprocess(files, PROCESSED_PAGE, finalPage, siteUrl).outcome.Pass?
    requires finalPage != PROCESSED_PAGE
    ensures PROCESSED_PAGE + HTML_SUFFIX in files
    ensures var out := Preprocess(files, PROCESSED_PAGE, finalPage, siteUrl).files;
      var root := files[PROCESSED_PAGE + HTML_SUFFIX];
      RewriteLinks(root.anchors, siteUrl).Ok? &&
      finalPage + HTML_SUFFIX in out &&
      out[finalPage + HTML_SUFFIX].anchors == RewriteLinks(root.anchors, siteUrl).value &&
      out.Keys == files.Keys + {finalPage + HTML_SUFFIX} - {PROCESSED_PAGE + HTML_SUFFIX}
  {
    assert (finalPage + HTML_SUFFIX)[..|finalPage|] == finalPage;
    assert (PROCESSED_PAGE + HTML_SUFFIX)[..|PROCESSED_PAGE|] == PROCESSED_PAGE;
  }

  /** When no link is named like the intermediate file, the fan-out leaves
      the saved root page in place. */
  lemma FanOutKeepsRoot(files: map<string, Page>, siteUrl: string, links: seq<string>, render: string -> Page)
    requires FanOut(files, siteUrl, links, render).outcome.Pass?
    requires PROCESSED_PAGE !in links && PROCESSED_PAGE + HTML_SUFFIX in files
    ensures PROCESSED_PAGE + HTML_SUFFIX in FanOut(files, siteUrl, links, render).files
    ensures FanOut(files, siteUrl, links, render).files[PROCESSED_PAGE + HTML_SUFFIX] == files[PROCESSED_PAGE + HTML_SUFFIX]
    ensures PROCESSED_PAGE + HTML_SUFFIX !in SavedNames(links)
  {
    RootSavedUnderIntermediateName();
    FanOutLeavesOthers(files, siteUrl, links, render);
    SavedNamesMembers(links);
    forall k | 0 <= k < |links| ensures FileName(links[k]) != FileName(PROCESSED_PAGE) {
      if FileName(links[k]) == FileName(PROCESSED_PAGE) {
        FileNameOnlyFromItself(links[k], PROCESSED_PAGE);
      }
    }
  }

  /** The mirror is navigable: after a successful crawl in which no link names
      the intermediate file and the final page has its own name, every root
      anchor that produced a non-empty link `p` now points at `FileName(p)`,
      and that file exists; every other anchor, including one whose link is
      empty, is unchanged. Success also
      means every root anchor had an href. */
  lemma OneLayerLinksResolve(files: map<string, Page>, siteUrl: string, finalPage: string, render: string -> Page)
    requires OneLayer(files, siteUrl, finalPage, render).outcome.Pass?
    requires PROCESSED_PAGE !in ExtractHrefLinks(render(siteUrl).anchors, siteUrl)
    requires finalPage != PROCESSED_PAGE
    ensures var out, anchors := OneLayer(files, siteUrl, finalPage, render).files, render(siteUrl).anchors;
      var links, idx := ExtractHrefLinks(anchors, siteUrl), KeptIndices(anchors, siteUrl);
      finalPage + HTML_SUFFIX in out &&
      |out[finalPage + HTML_SUFFIX].anchors| == |anchors| && |idx| == |links| &&
      (forall i :: 0 <= i < |anchors| ==> anchors[i].href.Some?) &&
      (forall k :: 0 <= k < |links| && links[k] != "" ==>
        idx[k] < |anchors| &&
        out[finalPage + HTML_SUFFIX].anchors[idx[k]].href == Some(FileName(links[k])) &&
        FileName(links[k]) in out) &&
      (forall k :: 0 <= k < |links| && links[k] == "" ==>
        idx[k] < |anchors| && out[finalPage + HTML_SUFFIX].anchors[idx[k]] == anchors[idx[k]]) &&
      (forall i :: 0 <= i < |anchors| && i !in idx ==> out[finalPage + HTML_SUFFIX].anchors[i] == anchors[i])
  {
    RootSavedUnderIntermediateName();
    var anchors := render(siteUrl).anchors;
    var rootName := PROCESSED_PAGE + HTML_SUFFIX;
    var links := ExtractHrefLinks(anchors, siteUrl);
    var root := Scrape(files, siteUrl, PROCESSED_PAGE, render);
    assert root.outcome.Pass? && rootName in root.files && root.files[rootName].anchors == anchors;
    var fanned := FanOut(root.files, siteUrl, links, render);
    assert fanned.outcome.Pass?;
    FanOutKeepsRoot(root.files, siteUrl, links, render);
    FanOutWrites(root.files, siteUrl, links, render);
    var out := OneLayer(files, siteUrl, finalPage, render).files;
    assert out == Preprocess(fanned.files, PROCESSED_PAGE, finalPage, siteUrl).files;
    PreprocessWritesFinalPage(fanned.files, finalPage, siteUrl);
    RewriteLinksResolveExtractedLinks(anchors, siteUrl);
    assert forall k :: 0 <= k < |links| ==> FileName(links[k]) in out by {
      SavedNamesMembers(links);
    }
  }

  /** The final page is written over any link file of the same name: when an
      extracted link `p` has `FileName(p)` equal to the final page's file name,
      that file ends up holding the rewritten root page, not the page of `p`. */
  lemma FinalPageOverwritesLinkFile(files: map<string, Page>, siteUrl: string, finalPage: string, render: string -> Page, p: string)
    requires OneLayer(files, siteUrl, finalPage, render).outcome.Pass?
    requires PROCESSED_PAGE !in ExtractHrefLinks(render(siteUrl).anchors, siteUrl)
    requires finalPage != PROCESSED_PAGE
    requires p in ExtractHrefLinks(render(siteUrl).anchors, siteUrl) && FileName(p) == finalPage + HTML_SUFFIX
    ensures FileName(p) in OneLayer(files, siteUrl, finalPage, render).files
    ensures RewriteLinks(render(siteUrl).anchors, siteUrl).Ok? &&
      OneLayer(files, siteUrl, finalPage, render).files[FileName(p)].anchors == RewriteLinks(render(siteUrl).anchors, siteUrl).value
  {
    RootSavedUnderIntermediateName();
    var anchors := render(siteUrl).anchors;
    var rootName := PROCESSED_PAGE + HTML_SUFFIX;
    var links := ExtractHrefLinks(anchors, siteUrl);
    var root := Scrape(files, siteUrl, PROCESSED_PAGE, render);
    assert root.outcome.Pass? && rootName in root.files && root.files[rootName].anchors == anchors;
    var fanned := FanOut(root.files, siteUrl, links, render);
    assert fanned.outcome.Pass?;
    FanOutKeepsRoot(root.files, siteUrl, links, render);
    var out := OneLayer(files, siteUrl, finalPage, render).files;
    assert out == Preprocess(fanned.files, PROCESSED_PAGE, finalPage, siteUrl).files;
    PreprocessWritesFinalPage(fanned.files, finalPage, siteUrl);
  }
}

=== FILE: dom.dfy ===
/** The parts of a parsed HTML page that the mirror's link and script
    handling reads or changes, and the ways a run can fail. */
module Dom {

  datatype Option<T> = None | Some(value: T)

  /** An `<a>` tag; `href` is None when the tag has no href attribute. */
  datatype Anchor = Anchor(href: Option<string>)

  /** A `<script>` tag; `src` is None when the tag has no src attribute. */
  datatype ScriptTag = ScriptTag(src: Option<string>)

  /** A page as the mirror sees it: the script tags inside `<head>` (None when
      the document has no `<head>`), the script tags elsewhere, and the anchors,
      each in document order. Text nodes and every other tag are not modelled. */
  datatype Page = Page(head: Option<seq<ScriptTag>>, bodyScripts: seq<ScriptTag>, anchors: seq<Anchor>)

  /** Every script tag of the page in document order (`find_all("script")`):
      the head comes before the body. */
  function AllScripts(p: Page): seq<ScriptTag> {
    (if p.head.Some? then p.head.value else []) + p.bodyScripts
  }

  /** The exceptions the core raises itself. */
  datatype Error =
    | MissingHead             // `soup.head.append` when the page has no <head>
    | MissingHref             // `None.replace(...)` on an anchor without href
    | FileNotFound(name: string)  // `open(name)` on a file that does not exist

  datatype Result<T> = Ok(value: T) | Err(error: Error)

  datatype Outcome = Pass | Fail(error: Error)
}

=== FILE: links.dfy ===
/** Which anchors of a page are same-site links (`extract_href_links`), and
    what the rewriter of `preprocess_anchor_src` turns each anchor's href into. */
module Links {
  import opened Strings
  import opened Dom
  import opened Naming

  /** The bare site root, which is never crawled. */
  const ROOT_LINK := "/"

  /** The substring test of utils.py:96 and utils.py:111 for external links. */
  predicate HasExternalMarker(s: string) {
    Contains(s, "https") || Contains(s, "http") || Contains(s, "mailto")
  }

  /** The "https" test is subsumed by the "http" test: a string has an
      external marker exactly when it contains "http" or "mailto". */
  lemma HttpsTestIsRedundant(s: string)
    ensures HasExternalMarker(s) <==> Contains(s, "http") || Contains(s, "mailto")
  {
    if Contains(s, "https") {
      ContainsPrefixOf(s, "https", "http");
    }
  }

  /** The test of utils.py:95. */
  predicate IsNotRoot(link: string) {
    link != ROOT_LINK
  }

  /** The test of utils.py:96. */
  predicate IsNotExternal(link: string) {
    !HasExternalMarker(link)
  }

  /** A stripped href that the extractor keeps: both tests pass. */
  predicate IsSameSite(stripped: string) {
    IsNotRoot(stripped) && IsNotExternal(stripped)
  }

  /** `href.replace(website_url, "")`: every occurrence of the site URL is deleted. */
  function Strip(href: string, siteUrl: string): string {
    ReplaceAll(href, siteUrl, "")
  }

  // ---------------------------------------------------------------------------
  // extract_href_links, stage by stage

  /** `[a.get("href") for a in anchors if a.get("href")]`: the hrefs that are
      present and non-empty, in anchor order. */
  function PresentHrefs(anchors: seq<Anchor>): (r: seq<string>)
    ensures |r| <= |anchors|
    ensures forall x :: x in r ==> x != ""
  {
    if anchors == [] then []
    else
      var last := anchors[|anchors| - 1];
      PresentHrefs(anchors[..|anchors| - 1]) +
      (if last.href.Some? && last.href.value != "" then [last.href.value] else [])
  }

  /** `[link.replace(website_url, "") for link in links]`. */
  function StripAll(links: seq<string>, siteUrl: string): seq<string> {
    seq(|links|, i requires 0 <= i < |links| => Strip(links[i], siteUrl))
  }

  /** `[x for x in links if keep(x)]`. */
  function Filter(links: seq<string>, keep: string -> bool): (r: seq<string>)
    ensures |r| <= |links|
    ensures forall x :: x in r ==> x in links && keep(x)
    ensures forall x :: x in links && keep(x) ==> x in r
  {
    if links == [] then []
    else
      var last := links[|links| - 1];
      assert links == links[..|links| - 1] + [last];
      Filter(links[..|links| - 1], keep) + (if keep(last) then [last] else [])
  }

  /** `extract_href_links`: the same-site link list of a page. */
  function ExtractHrefLinks(anchors: seq<Anchor>, siteUrl: string): (r: seq<string>)
    ensures |r| <= |anchors|
    ensures forall x :: x in r ==> x != ROOT_LINK && !Contains(x, "https") && !Contains(x, "http") && !Contains(x, "mailto")
  {
    var present := PresentHrefs(anchors);
    var stripped := StripAll(present, siteUrl);
    var notRoot := Filter(stripped, IsNotRoot);
    Filter(notRoot, IsNotExternal)
  }

  // ---------------------------------------------------------------------------
  // the same list, anchor by anchor

  /** The link one anchor contributes to `ExtractHrefLinks`, if any. The
      emptiness test comes before stripping: an href equal to the site URL
      contributes "", an empty or missing href contributes nothing. */
  function LinkOf(a: Anchor, siteUrl: string): Option<string> {
    if a.href.None? || a.href.value == "" then None
    else if IsSameSite(Strip(a.href.value, siteUrl)) then Some(Strip(a.href.value, siteUrl))
    else None
  }

  /** The contributions of all anchors, in order. */
  function LinksOf(anchors: seq<Anchor>, siteUrl: string): seq<string> {
    if anchors == [] then []
    else
      var link := LinkOf(anchors[|anchors| - 1], siteUrl);
      LinksOf(anchors[..|anchors| - 1], siteUrl) + (if link.Some? then [link.value] else [])
  }

  /** The indices of the anchors that contribute a link, in order. */
  function KeptIndices(anchors: seq<Anchor>, siteUrl: string): seq<nat> {
    if anchors == [] then []
    else
      KeptIndices(anchors[..|anchors| - 1], siteUrl) +
      (if LinkOf(anchors[|anchors| - 1], siteUrl).Some? then [|anchors| - 1] else [])
  }

  /** Filtering a list with one more element filters that element on its own. */
  lemma FilterSnoc(x: seq<string>, y: string, keep: string -> bool)
    ensures Filter(x + [y], keep) == Filter(x, keep) + (if keep(y) then [y] else [])
  {
    assert (x + [y])[..|x + [y]| - 1] == x;
  }

  /** Stripping a list with one more element strips that element on its own. */
  lemma StripAllSnoc(x: seq<string>, y: string, siteUrl: string)
    ensures StripAll(x + [y], siteUrl) == StripAll(x, siteUrl) + [Strip(y, siteUrl)]
  {
  }

  /** The last two stages of `extract_href_links`, on stripped hrefs. */
  function KeepSameSite(stripped: seq<string>): seq<string> {
    Filter(Filter(stripped, IsNotRoot), IsNotExternal)
  }

  /** The last two stages on a list with one more element keep that element
      exactly when it is same-site. */
  lemma KeepSameSiteSnoc(x: seq<string>, t: string)
    ensures KeepSameSite(x + [t]) == KeepSameSite(x) + (if IsSameSite(t) then [t] else [])
  {
    FilterSnoc(x, t, IsNotRoot);
    if t != ROOT_LINK {
      FilterSnoc(Filter(x, IsNotRoot), t, IsNotExternal);
    } else {
      assert !IsNotRoot(t);
      var kept := Filter(x, IsNotRoot);
      assert kept + [] == kept;
    }
  }

  /** One more anchor adds its own contribution to the extracted links. */
  lemma ExtractSnoc(init: seq<Anchor>, a: Anchor, siteUrl: string)
    ensures ExtractHrefLinks(init + [a], siteUrl) ==
      ExtractHrefLinks(init, siteUrl) + (if LinkOf(a, siteUrl).Some? then [LinkOf(a, siteUrl).value] else [])
  {
    assert (init + [a])[..|init + [a]| - 1] == init;
    var present := PresentHrefs(init);
    assert ExtractHrefLinks(init, siteUrl) == KeepSameSite(StripAll(present, siteUrl));
    if a.href.Some? && a.href.value != "" {
      var h := a.href.value;
      assert PresentHrefs(init + [a]) == present + [h];
      StripAllSnoc(present, h, siteUrl);
      assert ExtractHrefLinks(init + [a], siteUrl) == KeepSameSite(StripAll(present, siteUrl) + [Strip(h, siteUrl)]);
      KeepSameSiteSnoc(StripAll(present, siteUrl), Strip(h, siteUrl));
    } else {
      assert PresentHrefs(init + [a]) == present;
    }
  }

  /** The four-stage pipeline keeps exactly the per-anchor contributions. */
  lemma {:induction false} ExtractIsPerAnchor(anchors: seq<Anchor>, siteUrl: string)
    ensures ExtractHrefLinks(anchors, siteUrl) == LinksOf(anchors, siteUrl)
    decreases |anchors|
  {
    if anchors != [] {
      var init, a := anchors[..|anchors| - 1], anchors[|anchors| - 1];
      ExtractIsPerAnchor(init, siteUrl);
      assert anchors == init + [a];
      ExtractSnoc(init, a, siteUrl);
    }
  }

  /** `KeptIndices` lists, in increasing order, exactly the anchors that
      contribute, and the k-th link is the k-th such anchor's contribution. */
  lemma {:induction false} LinksOfIndexed(anchors: seq<Anchor>, siteUrl: string)
    ensures |KeptIndices(anchors, siteUrl)| == |LinksOf(anchors, siteUrl)|
    ensures forall k :: 0 <= k < |KeptIndices(anchors, siteUrl)| ==>
      KeptIndices(anchors, siteUrl)[k] < |anchors| &&
      LinkOf(anchors[KeptIndices(anchors, siteUrl)[k]], siteUrl) == Some(LinksOf(anchors, siteUrl)[k])
    ensures forall k, m :: 0 <= k < m < |KeptIndices(anchors, siteUrl)| ==>
      KeptIndices(anchors, siteUrl)[k] < KeptIndices(anchors, siteUrl)[m]
    ensures forall i :: 0 <= i < |anchors| ==>
      (i in KeptIndices(anchors, siteUrl) <==> LinkOf(anchors[i], siteUrl).Some?)
    decreases |anchors|
  {
    if anchors != [] {
      var init := anchors[..|anchors| - 1];
      LinksOfIndexed(init, siteUrl);
      assert forall i :: 0 <= i < |init| ==> init[i] == anchors[i];
    }
  }

  /** `extract_href_links` keeps anchor order and filters exactly: the k-th link
      is the stripped href of the k-th anchor whose href is present, non-empty
      and same-site after stripping, and every such anchor is represented. */
  lemma ExtractHrefLinksExact(anchors: seq<Anchor>, siteUrl: string)
    ensures var links, idx := ExtractHrefLinks(anchors, siteUrl), KeptIndices(anchors, siteUrl);
      |idx| == |links| &&
      (forall k, m :: 0 <= k < m < |idx| ==> idx[k] < idx[m]) &&
      (forall k :: 0 <= k < |idx| ==> (idx[k] < |anchors| &&
        anchors[idx[k]].href.Some? && anchors[idx[k]].href.value != "" &&
        links[k] == Strip(anchors[idx[k]].href.value, siteUrl) && IsSameSite(links[k]))) &&
      (forall i :: 0 <= i < |anchors| ==>
        (i in idx <==> anchors[i].href.Some? && anchors[i].href.value != "" &&
                       IsSameSite(Strip(anchors[i].href.value, siteUrl))))
  {
    ExtractIsPerAnchor(anchors, siteUrl);
    LinksOfIndexed(anchors, siteUrl);
  }

  /** An href equal to the site URL contributes the empty link, while an empty
      or missing href contributes nothing. */
  lemma SiteUrlContributesEmptyLink(siteUrl: string)
    requires siteUrl != ""
    ensures LinkOf(Anchor(Some(siteUrl)), siteUrl) == Some("")
    ensures LinkOf(Anchor(Some("")), siteUrl) == None
    ensures LinkOf(Anchor(None), siteUrl) == None
  {
    ReplaceLeading(siteUrl, [], []);
    assert siteUrl + [] == siteUrl;
  }

  /** The site URL is deleted where it occurs inside an href, not only at
      its start: what precedes its first occurrence is kept as it is. */
  lemma StripSiteInMiddle(u: string, siteUrl: string, t: string)
    requires siteUrl != [] && siteUrl[0] !in u
    ensures Strip(u + siteUrl + t, siteUrl) == u + Strip(t, siteUrl)
  {
    NotContainsBeforeOccurrence(u, siteUrl);
    ReplaceAfterFree(u, siteUrl, t, []);
    assert u + [] == u;
  }

  /** With site URL "https://site.com", the href
      "/r?u=https://site.com/about" is stripped to "/r?u=/about". */
  lemma StripSiteInMiddleExample(u: string, siteUrl: string, t: string)
    requires u == "/r?u=" && siteUrl == "https://site.com" && t == "/about"
    ensures Strip(u + siteUrl + t, siteUrl) == u + t
  {
    assert siteUrl[0] !in u by {
      forall i | 0 <= i < |u| ensures u[i] != siteUrl[0] { }
    }
    StripSiteInMiddle(u, siteUrl, t);
    NotContainsLonger(t, siteUrl);
  }

  /** A site-relative path behind the site URL is stripped back to the path. */
  lemma StripSitePrefix(siteUrl: string, path: string)
    requires siteUrl != "" && !Contains(path, siteUrl)
    ensures Strip(siteUrl + path, siteUrl) == path
  {
    ReplaceLeading(siteUrl, path, []);
  }

  // The example lemmas below take their strings as parameters fixed by a
  // requires clause (`requires about == "/about"`) rather than as literals in
  // the ensures: the verifier unfolds every function on a literal eagerly, and
  // that runs out of resource.

  /** The substring test drops a relative path that merely mentions "http". */
  lemma RelativeHttpPathDropped(path: string, siteUrl: string)
    requires path == "/http-status" && siteUrl == "https://site.com"
    ensures LinkOf(Anchor(Some(path)), siteUrl) == None
  {
    NotContainsLonger(path, siteUrl);
    assert Strip(path, siteUrl) == path;
    assert StartsWith(path[1..], "http");
    assert Contains(path, "http");
  }

  /** A relative path not mentioning the site URL or an external marker is
      its own link. */
  lemma RelativePathIsItsOwnLink(path: string, siteUrl: string)
    requires path != "" && path != ROOT_LINK && siteUrl != ""
    requires !Contains(path, siteUrl) && !HasExternalMarker(path)
    ensures LinkOf(Anchor(Some(path)), siteUrl) == Some(path)
  {
  }

  /** "https://site.com" does not occur in "https://external.com". */
  lemma SiteUrlNotInExternalUrl()
    ensures !Contains("https://external.com", "https://site.com")
  {
    var url := "https://site.com";
    var ext := "https://external.com";
    forall i: nat ensures !OccursAt(ext, url, i) {
      if i + |url| <= |ext| {
        if i == 0 {
          assert ext[i..i + |url|][8] != url[8];
        } else {
          assert ext[i..i + |url|][0] != url[0];
        }
      }
    }
    ContainsIffOccurs(ext, url);
  }

  /** An absolute "http" or "https" link that does not mention the site URL
      is dropped. */
  lemma ForeignUrlDropped(href: string, siteUrl: string)
    requires StartsWith(href, "http") && siteUrl != "" && !Contains(href, siteUrl)
    ensures LinkOf(Anchor(Some(href)), siteUrl) == None
  {
    assert Strip(href, siteUrl) == href;
  }

  /** "/about" is a site-relative path kept as it is. */
  lemma AboutKept(about: string, siteUrl: string)
    requires about == "/about" && siteUrl == "https://site.com"
    ensures LinkOf(Anchor(Some(about)), siteUrl) == Some(about)
  {
    NotContainsLonger(about, siteUrl);
    NotContainsWithoutFirstChar(about, "https");
    NotContainsWithoutFirstChar(about, "http");
    NotContainsWithoutFirstChar(about, "mailto");
    RelativePathIsItsOwnLink(about, siteUrl);
  }

  /** "/team" is a site-relative path kept as it is. */
  lemma TeamKept(team: string, siteUrl: string)
    requires team == "/team" && siteUrl == "https://site.com"
    ensures LinkOf(Anchor(Some(team)), siteUrl) == Some(team)
  {
    NotContainsLonger(team, siteUrl);
    NotContainsWithoutFirstChar(team, "https");
    NotContainsWithoutFirstChar(team, "http");
    NotContainsLonger(team, "mailto");
    RelativePathIsItsOwnLink(team, siteUrl);
  }

  /** "https://external.com" is dropped under site URL "https://site.com". */
  lemma ExampleExternalDropped(external: string, siteUrl: string)
    requires external == "https://external.com" && siteUrl == "https://site.com"
    ensures LinkOf(Anchor(Some(external)), siteUrl) == None
  {
    SiteUrlNotInExternalUrl();
    ForeignUrlDropped("https://external.com", "https://site.com");
  }

  /** The link list of a page with three anchors, anchor by anchor. */
  lemma ExtractOfThree(a0: Anchor, a1: Anchor, a2: Anchor, siteUrl: string)
    ensures ExtractHrefLinks([a0, a1, a2], siteUrl) ==
      LinksOf([a0], siteUrl) + LinksOf([a1], siteUrl) + LinksOf([a2], siteUrl)
  {
    var anchors := [a0, a1, a2];
    ExtractIsPerAnchor(anchors, siteUrl);
    assert [a0][..0] == [] && [a1][..0] == [] && [a2][..0] == [];
    assert [a0, a1][..1] == [a0];
    assert LinksOf([a0, a1], siteUrl) == LinksOf([a0], siteUrl) + LinksOf([a1], siteUrl);
    assert anchors[..2] == [a0, a1];
    assert LinksOf(anchors, siteUrl) == LinksOf([a0, a1], siteUrl) + LinksOf([a2], siteUrl);
  }

  /** With site URL "https://site.com", the anchors "/about",
      "https://external.com" and "/team" yield the links "/about" and "/team",
      in that order. */
  lemma ExtractExample(about: string, external: string, team: string, siteUrl: string)
    requires about == "/about" && external == "https://external.com" && team == "/team"
    requires siteUrl == "https://site.com"
    ensures ExtractHrefLinks([Anchor(Some(about)), Anchor(Some(external)), Anchor(Some(team))], siteUrl) == [about, team]
  {
    ExtractOfThree(Anchor(Some(about)), Anchor(Some(external)), Anchor(Some(team)), siteUrl);
    AboutKept(about, siteUrl);
    TeamKept(team, siteUrl);
    ExampleExternalDropped(external, siteUrl);
  }

  // ---------------------------------------------------------------------------
  // preprocess_anchor_src, one anchor at a time

  /** A stripped href that the rewriter redirects to a local file (utils.py:111). */
  predicate IsLocalTarget(stripped: string) {
    stripped != "" && IsSameSite(stripped)
  }

  /** The href the rewriter leaves on an anchor whose href is `href`: the local
      file name of the stripped href, or the original href, unstripped. */
  function RewriteHref(href: string, siteUrl: string): string {
    var stripped := Strip(href, siteUrl);
    if IsLocalTarget(stripped) then FileName(stripped) else href
  }

  /** The anchor after the rewriter visited it. */
  function RewriteAnchor(a: Anchor, siteUrl: string): Anchor
    requires a.href.Some?
  {
    Anchor(Some(RewriteHref(a.href.value, siteUrl)))
  }

  /** Index of the first anchor without an href, or the number of anchors. */
  function FirstMissingHref(anchors: seq<Anchor>): (k: nat)
    ensures k <= |anchors|
    ensures forall i :: 0 <= i < k ==> anchors[i].href.Some?
    ensures k < |anchors| ==> anchors[k].href.None?
  {
    if anchors == [] || anchors[0].href.None? then 0
    else 1 + FirstMissingHref(anchors[1..])
  }

  /** The anchor loop of `preprocess_anchor_src` on a whole page: it fails as
      soon as an anchor has no href; otherwise every anchor is rewritten. */
  function RewriteLinks(anchors: seq<Anchor>, siteUrl: string): Result<seq<Anchor>> {
    if FirstMissingHref(anchors) < |anchors| then Err(MissingHref)
    else Ok(seq(|anchors|, i requires 0 <= i < |anchors| => RewriteAnchor(anchors[i], siteUrl)))
  }

  /** Extraction and rewriting agree anchor by anchor: an anchor is redirected
      exactly when it contributes a non-empty link `p`, and then to `FileName(p)`,
      a name without '/' ending in ".html"; every other anchor keeps its href. */
  lemma RewriteMatchesExtraction(a: Anchor, siteUrl: string)
    requires a.href.Some?
    ensures var link := LinkOf(a, siteUrl);
      if link.Some? && link.value != "" then
        RewriteHref(a.href.value, siteUrl) == FileName(link.value) &&
        '/' !in RewriteHref(a.href.value, siteUrl) &&
        EndsWith(RewriteHref(a.href.value, siteUrl), HTML_SUFFIX)
      else RewriteHref(a.href.value, siteUrl) == a.href.value
  {
    if a.href.value == "" && siteUrl == "" {
      ReplaceEmptyByEmpty("");
    }
  }

  /** With site URL "https://site.com", href "/about" becomes "_about.html" and
      "https://external.com" is left as it is. */
  lemma RewriteExample(about: string, external: string, siteUrl: string)
    requires about == "/about" && external == "https://external.com" && siteUrl == "https://site.com"
    ensures RewriteHref(about, siteUrl) == "_about.html"
    ensures RewriteHref(external, siteUrl) == external
  {
    assert RewriteHref(about, siteUrl) == FileName(about) by {
      AboutKept(about, siteUrl);
      RewriteMatchesExtraction(Anchor(Some(about)), siteUrl);
    }
    assert FileName(about) == "_about.html" by {
      assert SanitizeStem(about) == "_about";
    }
    assert RewriteHref(external, siteUrl) == external by {
      ExampleExternalDropped(external, siteUrl);
      RewriteMatchesExtraction(Anchor(Some(external)), siteUrl);
    }
  }

  /** On a page whose anchors all have an href, the rewritten page points the
      anchor behind every non-empty extracted link `p` at `FileName(p)`, the
      file the crawl saves that link's page under, and leaves all other anchors
      as they were. A missing href makes the rewrite fail, although extraction
      simply skips such an anchor. */
  lemma RewriteLinksResolveExtractedLinks(anchors: seq<Anchor>, siteUrl: string)
    ensures RewriteLinks(anchors, siteUrl).Err? <==> exists i :: 0 <= i < |anchors| && anchors[i].href.None?
    ensures RewriteLinks(anchors, siteUrl).Ok? ==>
      var out, links, idx := RewriteLinks(anchors, siteUrl).value, ExtractHrefLinks(anchors, siteUrl), KeptIndices(anchors, siteUrl);
      |out| == |anchors| && |idx| == |links| &&
      (forall k :: 0 <= k < |links| && links[k] != "" ==> idx[k] < |out| && out[idx[k]].href == Some(FileName(links[k]))) &&
      (forall k :: 0 <= k < |links| && links[k] == "" ==> idx[k] < |out| && out[idx[k]] == anchors[idx[k]]) &&
      (forall i :: 0 <= i < |anchors| && i !in idx ==> out[i] == anchors[i])
  {
    ExtractIsPerAnchor(anchors, siteUrl);
    LinksOfIndexed(anchors, siteUrl);
    if RewriteLinks(anchors, siteUrl).Ok? {
      var out, links, idx := RewriteLinks(anchors, siteUrl).value, ExtractHrefLinks(anchors, siteUrl), KeptIndices(anchors, siteUrl);
      forall i | 0 <= i < |anchors| ensures out[i] == RewriteAnchor(anchors[i], siteUrl) {
      }
      forall i | 0 <= i < |anchors| ensures LinkOf(anchors[i], siteUrl).None? ==> out[i] == anchors[i] {
        RewriteMatchesExtraction(anchors[i], siteUrl);
      }
      forall k | 0 <= k < |links| ensures idx[k] < |out| &&
        (if links[k] != "" then out[idx[k]].href == Some(FileName(links[k])) else out[idx[k]] == anchors[idx[k]]) {
        RewriteMatchesExtraction(anchors[idx[k]], siteUrl);
      }
    } else {
      var k := FirstMissingHref(anchors);
      assert anchors[k].href.None?;
    }
  }
}

=== FILE: naming.dfy ===
/** The file name a page is saved under: `save_html_content` turns every '/'
    of the destination into '_' and appends ".html". */
module Naming {
  import opened Strings

  const HTML_SUFFIX := ".html"

  /** `dst.replace('/', '_')`: same length, every '/' turned into '_', nothing else touched. */
  function SanitizeStem(dst: string): (r: string)
    ensures |r| == |dst|
    ensures forall i :: 0 <= i < |dst| ==> r[i] == (if dst[i] == '/' then '_' else dst[i])
    ensures '/' !in r
  {
    ReplaceCharIsMapChar(dst, '/', '_');
    ReplaceAll(dst, "/", "_")
  }

  /** The name of the file written for destination `dst`. */
  function FileName(dst: string): (r: string)
    ensures '/' !in r
    ensures EndsWith(r, HTML_SUFFIX)
    ensures |r| == |dst| + |HTML_SUFFIX|
  {
    SanitizeStem(dst) + HTML_SUFFIX
  }

  /** Sanitising twice is sanitising once. */
  lemma SanitizeIdempotent(dst: string)
    ensures SanitizeStem(SanitizeStem(dst)) == SanitizeStem(dst)
  {
    var once := SanitizeStem(dst);
    assert forall i :: 0 <= i < |once| ==> SanitizeStem(once)[i] == once[i];
  }

  /** A name without '/' is left as it is. */
  lemma SanitizeKeepsSlashFree(s: string)
    requires '/' !in s
    ensures SanitizeStem(s) == s
  {
    assert forall i :: 0 <= i < |s| ==> s[i] != '/';
  }

  /** Re-sanitising a file name already produced by `FileName` is a no-op. */
  lemma FileNameResanitised(dst: string)
    ensures SanitizeStem(FileName(dst)) == FileName(dst)
  {
    SanitizeKeepsSlashFree(FileName(dst));
  }

  /** Two destinations that differ only where one has '/' and the other '_'
      are saved under the same file name: no collision is detected. */
  lemma FileNamesCollide()
    ensures "/a" != "_a" && FileName("/a") == FileName("_a")
  {
    assert SanitizeStem("/a") == "_a";
    SanitizeKeepsSlashFree("_a");
  }

  /** The only destination saved under the file name of a destination free of
      '/' and '_' is that destination itself. */
  lemma FileNameOnlyFromItself(p: string, q: string)
    requires '/' !in q && '_' !in q
    requires FileName(p) == FileName(q)
    ensures p == q
  {
    SanitizeKeepsSlashFree(q);
    assert SanitizeStem(p) == FileName(p)[..|p|];
    assert SanitizeStem(q) == FileName(q)[..|q|];
    forall i | 0 <= i < |p| ensures p[i] == q[i] {
      assert SanitizeStem(p)[i] == q[i];
      assert q[i] != '_';
    }
  }
}

=== FILE: scripts.dfy ===
/** The script-tag handling of `scrap_translate_webpage`: the sources of all
    script tags are collected (`extract_js_files`) and a new script tag for each
    is appended to the page's head (`include_js_files`). */
module Scripts {
  import opened Dom

  /** `[js.get("src") for js in scripts if js.get("src")]`: the sources that are
      present and non-empty, in document order. */
  function ExtractJsFiles(scripts: seq<ScriptTag>): (r: seq<string>)
    ensures |r| <= |scripts|
    ensures forall x :: x in r ==> x != ""
  {
    if scripts == [] then []
    else
      var last := scripts[|scripts| - 1];
      ExtractJsFiles(scripts[..|scripts| - 1]) +
      (if last.src.Some? && last.src.value != "" then [last.src.value] else [])
  }

  /** The script tags `include_js_files` creates, one per source, in order. */
  function ScriptTagsFor(jsFiles: seq<string>): (r: seq<ScriptTag>)
    ensures |r| == |jsFiles|
  {
    seq(|jsFiles|, i requires 0 <= i < |jsFiles| => ScriptTag(Some(jsFiles[i])))
  }

  /** The page `scrap_translate_webpage` saves for a rendered page: a script tag
      for every source found is appended to the head. It fails when there is a
      source to append and the page has no head. */
  function ScrapedPage(p: Page): (r: Result<Page>)
    ensures r.Err? <==> p.head.None? && ExtractJsFiles(AllScripts(p)) != []
    ensures r.Ok? ==> r.value.anchors == p.anchors && r.value.bodyScripts == p.bodyScripts
    ensures r.Ok? ==> r.value.head.Some? == p.head.Some?
  {
    var jsFiles := ExtractJsFiles(AllScripts(p));
    if p.head.None? then
      if jsFiles == [] then Ok(p) else Err(MissingHead)
    else Ok(p.(head := Some(p.head.value + ScriptTagsFor(jsFiles))))
  }

  /** A source is extracted exactly when some script tag carries it and it is
      non-empty: tags without a `src`, or with an empty one, contribute nothing. */
  lemma {:induction false} ExtractJsFilesMembers(scripts: seq<ScriptTag>, x: string)
    ensures x in ExtractJsFiles(scripts) <==> exists i :: 0 <= i < |scripts| && scripts[i].src == Some(x) && x != ""
    decreases |scripts|
  {
    if scripts != [] {
      var init, last := scripts[..|scripts| - 1], scripts[|scripts| - 1];
      ExtractJsFilesMembers(init, x);
      if exists i :: 0 <= i < |scripts| && scripts[i].src == Some(x) && x != "" {
        var i :| 0 <= i < |scripts| && scripts[i].src == Some(x) && x != "";
        if i < |init| {
          assert init[i] == scripts[i];
        }
      }
      if exists i :: 0 <= i < |init| && init[i].src == Some(x) && x != "" {
        var i :| 0 <= i < |init| && init[i].src == Some(x) && x != "";
        assert scripts[i] == init[i];
      }
    }
  }

  /** A page none of whose script tags has a non-empty `src` is saved as it
      is, with or without a head. */
  lemma ScrapedPageWithoutSources(p: Page)
    requires forall i :: 0 <= i < |AllScripts(p)| ==> AllScripts(p)[i].src.None? || AllScripts(p)[i].src == Some("")
    ensures ScrapedPage(p) == Ok(p)
  {
    var js := ExtractJsFiles(AllScripts(p));
    if js != [] {
      ExtractJsFilesMembers(AllScripts(p), js[0]);
    }
    if p.head.Some? {
      assert p.head.value + ScriptTagsFor(js) == p.head.value;
    }
  }

  /** Extraction distributes over concatenation of tag lists. */
  lemma {:induction false} ExtractJsFilesAppend(a: seq<ScriptTag>, b: seq<ScriptTag>)
    ensures ExtractJsFiles(a + b) == ExtractJsFiles(a) + ExtractJsFiles(b)
    decreases |b|
  {
    if b != [] {
      var b' := b[..|b| - 1];
      assert (a + b)[..|a + b| - 1] == a + b';
      var last := b[|b| - 1];
      assert (a + b)[|a + b| - 1] == last;
      var extra := if last.src.Some? && last.src.value != "" then [last.src.value] else [];
      assert ExtractJsFiles(b) == ExtractJsFiles(b') + extra;
      assert ExtractJsFiles(a + b) == ExtractJsFiles(a + b') + extra;
      ExtractJsFilesAppend(a, b');
    } else {
      assert a + b == a;
    }
  }

  /** The tags created for non-empty sources give those sources back. */
  lemma {:induction false} ExtractIncludedRoundTrip(jsFiles: seq<string>)
    requires forall x :: x in jsFiles ==> x != ""
    ensures ExtractJsFiles(ScriptTagsFor(jsFiles)) == jsFiles
    decreases |jsFiles|
  {
    if jsFiles != [] {
      var init := jsFiles[..|jsFiles| - 1];
      assert ScriptTagsFor(jsFiles)[..|jsFiles| - 1] == ScriptTagsFor(init);
      assert jsFiles[|jsFiles| - 1] in jsFiles;
      assert forall x :: x in init ==> x in jsFiles;
      ExtractIncludedRoundTrip(init);
    }
  }

  /** Every script source of a scraped page is listed twice: once by the tag
      it came from and once by the tag appended to the head for it. */
  lemma ScrapedPageListsSourcesTwice(p: Page)
    requires ScrapedPage(p).Ok?
    ensures var before := ExtractJsFiles(AllScripts(p));
      multiset(ExtractJsFiles(AllScripts(ScrapedPage(p).value))) == multiset(before) + multiset(before)
  {
    var before := ExtractJsFiles(AllScripts(p));
    if p.head.Some? {
      var head, body := p.head.value, p.bodyScripts;
      ExtractJsFilesAppend(head, body);
      ExtractJsFilesAppend(head, ScriptTagsFor(before));
      ExtractJsFilesAppend(head + ScriptTagsFor(before), body);
      ExtractIncludedRoundTrip(before);
      assert AllScripts(ScrapedPage(p).value) == head + ScriptTagsFor(before) + body;
    }
  }
}

=== FILE: soup.dfy ===
/** A parsed page whose tags the core changes in place: `include_js_files`
    appends to its head, and the anchor loop of `preprocess_anchor_src`
    assigns to the href of each anchor it visits. */
module Soups {
  import opened Strings
  import opened Dom
  import opened Naming
  import opened Links
  import opened Scripts

  class Soup {
    /** The script tags of `<head>`, or None when the page has no head. */
    var head: Option<seq<ScriptTag>>
    /** The script tags outside `<head>`. */
    var bodyScripts: seq<ScriptTag>
    /** `soup.find_all('a')`: the anchor tags, which are updated in place. */
    const anchors: array<Anchor>

    /** The page the soup currently represents. */
    function ToPage(): Page
      reads this, anchors
    {
      Page(head, bodyScripts, anchors[..])
    }

    /** Parsing a page gives a soup that represents that page. */
    constructor Parse(page: Page)
      ensures ToPage() == page
      ensures fresh(anchors)
    {
      head := page.head;
      bodyScripts := page.bodyScripts;
      anchors := new Anchor[|page.anchors|](i requires 0 <= i < |page.anchors| => page.anchors[i]);
      new;
      assert anchors[..] == page.anchors;
    }

    /** `include_js_files`: appends a script tag for each source, in order, to
        the head. With no head, the first append raises; with no sources,
        nothing happens. */
    method IncludeJsFiles(jsFiles: seq<string>) returns (o: Outcome)
      modifies this
      ensures o == (if old(head).None? && jsFiles != [] then Fail(MissingHead) else Pass)
      ensures head == (if old(head).Some? then Some(old(head).value + ScriptTagsFor(jsFiles)) else old(head))
      ensures bodyScripts == old(bodyScripts)
    {
      var i := 0;
      if old(head).Some? {
        assert old(head).value + ScriptTagsFor(jsFiles[..0]) == old(head).value;
      }
      while i < |jsFiles|
        invariant 0 <= i <= |jsFiles|
        invariant old(head).None? ==> i == 0
        invariant head == (if old(head).Some? then Some(old(head).value + ScriptTagsFor(jsFiles[..i])) else old(head))
        invariant bodyScripts == old(bodyScripts)
      {
        if head.None? {
          return Fail(MissingHead);
        }
        var tag := ScriptTag(Some(jsFiles[i]));
        assert ScriptTagsFor(jsFiles[..i + 1]) == ScriptTagsFor(jsFiles[..i]) + [tag];
        assert old(head).value + ScriptTagsFor(jsFiles[..i + 1]) == head.value + [tag];
        head := Some(head.value + [tag]);
        i := i + 1;
      }
      assert jsFiles[..i] == jsFiles;
      return Pass;
    }

    /** The anchor loop of `preprocess_anchor_src`. Each anchor is visited in
        order; its href is stripped of the site URL, and if what remains is a
        local target the anchor's href becomes its file name. The loop raises at
        the first anchor without an href, leaving the anchors before it
        rewritten and the rest untouched; no other anchor is ever changed. */
    method RewriteAnchors(siteUrl: string) returns (o: Outcome)
      modifies anchors
      ensures var k := FirstMissingHref(old(anchors[..]));
        o == (if k < anchors.Length then Fail(MissingHref) else Pass) &&
        (forall i :: 0 <= i < k ==> old(anchors[i]).href.Some? && anchors[i] == RewriteAnchor(old(anchors[i]), siteUrl)) &&
        (forall i :: k <= i < anchors.Length ==> anchors[i] == old(anchors[i]))
      ensures o.Pass? ==> RewriteLinks(old(anchors[..]), siteUrl) == Ok(anchors[..])
    {
      ghost var before := anchors[..];
      var i := 0;
      while i < anchors.Length
        invariant 0 <= i <= anchors.Length
        invariant forall j :: 0 <= j < i ==> before[j].href.Some? && anchors[j] == RewriteAnchor(before[j], siteUrl)
        invariant forall j :: i <= j < anchors.Length ==> anchors[j] == before[j]
      {
        var href := anchors[i].href;
        if href.None? {
          assert FirstMissingHref(before) == i;
          return Fail(MissingHref);
        }
        var stripped := ReplaceAll(href.value, siteUrl, "");
        if stripped != "" && !HasExternalMarker(stripped) && stripped != ROOT_LINK {
          var local := ReplaceAll(stripped, "/", "_");
          local := local + HTML_SUFFIX;
          anchors[i] := Anchor(Some(local));
        }
        i := i + 1;
      }
      assert FirstMissingHref(before) == anchors.Length;
      assert anchors[..] == RewriteLinks(before, siteUrl).value;
      return Pass;
    }
  }
}

=== FILE: strings.dfy ===
/** Python's `sub in s` and `s.replace(pat, rep)` written out on `seq<char>`. */
module Strings {

  /** `s` begins with `prefix`. */
  predicate StartsWith(s: string, prefix: string) {
    |prefix| <= |s| && s[..|prefix|] == prefix
  }

  /** `s` ends with `suffix`. */
  predicate EndsWith(s: string, suffix: string) {
    |suffix| <= |s| && s[|s| - |suffix|..] == suffix
  }

  /** Python's `sub in s`: some suffix of `s` starts with `sub`
      (so the empty string is in every string, "" included). */
  predicate Contains(s: string, sub: string)
    decreases |s|
  {
    StartsWith(s, sub) || (s != [] && Contains(s[1..], sub))
  }

  /** `sub` occurs in `s` at index `i`: the index-based reading of `sub in s`. */
  predicate OccursAt(s: string, sub: string, i: nat) {
    i + |sub| <= |s| && s[i..i + |sub|] == sub
  }

  /** Python's `s.replace(pat, rep)`: scans left to right and replaces every
      non-overlapping occurrence of `pat`, not only a leading one. With an empty
      `pat`, Python inserts `rep` before every character and once at the end. */
  function ReplaceAll(s: string, pat: string, rep: string): (r: string)
    ensures pat != [] && !Contains(s, pat) ==> r == s
    ensures rep == [] ==> |r| <= |s|
    decreases |s|
  {
    if pat == [] then
      if s == [] then rep else rep + [s[0]] + ReplaceAll(s[1..], pat, rep)
    else if s == [] then []
    else if StartsWith(s, pat) then rep + ReplaceAll(s[|pat|..], pat, rep)
    else [s[0]] + ReplaceAll(s[1..], pat, rep)
  }

  /** `c` mapped to `d` position by position: the reference meaning of a
      one-character replacement. */
  function MapChar(s: string, c: char, d: char): (r: string) {
    seq(|s|, i requires 0 <= i < |s| => if s[i] == c then d else s[i])
  }

  /** The recursive `Contains` agrees with the index-based reading. */
  lemma {:induction false} ContainsIffOccurs(s: string, sub: string)
    ensures Contains(s, sub) <==> exists i: nat :: OccursAt(s, sub, i)
    decreases |s|
  {
    if StartsWith(s, sub) {
      assert OccursAt(s, sub, 0);
    } else if s == [] {
      forall i: nat ensures !OccursAt(s, sub, i) { }
    } else {
      ContainsIffOccurs(s[1..], sub);
      if Contains(s[1..], sub) {
        var j: nat :| OccursAt(s[1..], sub, j);
        assert s[j + 1..j + 1 + |sub|] == s[1..][j..j + |sub|];
        assert OccursAt(s, sub, j + 1);
      } else {
        forall i: nat ensures !OccursAt(s, sub, i) {
          if i > 0 && i + |sub| <= |s| {
            assert s[1..][i - 1..i - 1 + |sub|] == s[i..i + |sub|];
            assert !OccursAt(s[1..], sub, i - 1);
          }
        }
      }
    }
  }

  /** Whatever contains `sub` contains every prefix of `sub`; so a string
      containing "https" always contains "http". */
  lemma {:induction false} ContainsPrefixOf(s: string, sub: string, p: string)
    requires Contains(s, sub) && StartsWith(sub, p)
    ensures Contains(s, p)
    decreases |s|
  {
    if StartsWith(s, sub) {
      assert s[..|p|] == s[..|sub|][..|p|];
    } else {
      ContainsPrefixOf(s[1..], sub, p);
    }
  }

  /** Replacing one character by another is `MapChar`. */
  lemma {:induction false} ReplaceCharIsMapChar(s: string, c: char, d: char)
    ensures ReplaceAll(s, [c], [d]) == MapChar(s, c, d)
    decreases |s|
  {
    if s != [] {
      ReplaceCharIsMapChar(s[1..], c, d);
      assert StartsWith(s, [c]) <==> s[0] == c;
      assert s[|[c]|..] == s[1..];
      assert MapChar(s, c, d) == [if s[0] == c then d else s[0]] + MapChar(s[1..], c, d);
    }
  }

  /** Deleting the empty string changes nothing: stripping an empty site URL is the identity. */
  lemma {:induction false} ReplaceEmptyByEmpty(s: string)
    ensures ReplaceAll(s, [], []) == s
    decreases |s|
  {
    if s != [] {
      ReplaceEmptyByEmpty(s[1..]);
      assert [s[0]] + s[1..] == s;
    }
  }

  /** A leading occurrence of `pat` is replaced and the scan carries on after it. */
  lemma ReplaceLeading(pat: string, t: string, rep: string)
    requires pat != []
    ensures ReplaceAll(pat + t, pat, rep) == rep + ReplaceAll(t, pat, rep)
  {
    assert (pat + t)[..|pat|] == pat;
    assert (pat + t)[|pat|..] == t;
  }

  /** A string is free of every string whose first character it lacks. */
  lemma {:induction false} NotContainsWithoutFirstChar(s: string, sub: string)
    requires sub != [] && sub[0] !in s
    ensures !Contains(s, sub)
    decreases |s|
  {
    if s != [] {
      NotContainsWithoutFirstChar(s[1..], sub);
    }
  }

  /** A string is free of every longer string. */
  lemma {:induction false} NotContainsLonger(s: string, sub: string)
    requires |s| < |sub|
    ensures !Contains(s, sub)
    decreases |s|
  {
    if s != [] {
      NotContainsLonger(s[1..], sub);
    }
  }

  /** A string before a first occurrence of `pat` that starts with a
      character not in `u` cannot already contain `pat`. */
  lemma {:induction false} NotContainsBeforeOccurrence(u: string, pat: string)
    requires pat != [] && pat[0] !in u
    ensures !Contains(u + pat[..|pat| - 1], pat)
    decreases |u|
  {
    if u == [] {
      assert u + pat[..|pat| - 1] == pat[..|pat| - 1];
      NotContainsLonger(pat[..|pat| - 1], pat);
    } else {
      NotContainsBeforeOccurrence(u[1..], pat);
      assert (u + pat[..|pat| - 1])[1..] == u[1..] + pat[..|pat| - 1];
      assert (u + pat[..|pat| - 1])[0] != pat[0];
    }
  }

  /** Where `pat` does not start, the first character is copied and the scan
      carries on after it. */
  lemma ReplaceSkip(s: string, pat: string, rep: string)
    requires pat != [] && s != [] && !StartsWith(s, pat)
    ensures ReplaceAll(s, pat, rep) == [s[0]] + ReplaceAll(s[1..], pat, rep)
  {
  }

  /** How `u + pat + t` and `u + pat[..|pat| - 1]` look one character in. */
  lemma ShiftByOne(u: string, pat: string, t: string)
    requires u != [] && pat != []
    ensures |u + pat[..|pat| - 1]| >= |pat|
    ensures (u + pat + t)[..|pat|] == (u + pat[..|pat| - 1])[..|pat|]
    ensures (u + pat[..|pat| - 1])[1..] == u[1..] + pat[..|pat| - 1]
    ensures (u + pat + t)[1..] == u[1..] + pat + t
    ensures [(u + pat + t)[0]] + u[1..] == u
  {
  }

  /** Before the first occurrence of `pat` there is none at the start, and
      none one character further on either. */
  lemma NoOccurrenceAtStart(u: string, pat: string, t: string)
    requires u != [] && pat != [] && !Contains(u + pat[..|pat| - 1], pat)
    ensures !StartsWith(u + pat + t, pat)
    ensures !Contains(u[1..] + pat[..|pat| - 1], pat)
  {
    ShiftByOne(u, pat, t);
    var w := u + pat[..|pat| - 1];
    assert !StartsWith(w, pat);
  }

  /** Where `pat` does not start, the scan's result is the first character
      followed by the result on the rest, whatever shape that takes. */
  lemma ReplaceSkipOnto(s: string, pat: string, rep: string, v: string, x: string)
    requires pat != [] && s != [] && !StartsWith(s, pat)
    requires ReplaceAll(s[1..], pat, rep) == v + x
    ensures ReplaceAll(s, pat, rep) == ([s[0]] + v) + x
  {
    ReplaceSkip(s, pat, rep);
    assert [s[0]] + (v + x) == ([s[0]] + v) + x;
  }

  /** Putting the first character back in front. */
  lemma ConsBack(u: string, v: string)
    requires u != []
    ensures [u[0]] + (u[1..] + v) == u + v
  {
    assert [u[0]] + u[1..] == u;
  }

  /** One step of the scan before the first occurrence of `pat`. */
  lemma ReplaceAfterFreeStep(u: string, pat: string, t: string, rep: string)
    requires u != [] && pat != [] && !Contains(u + pat[..|pat| - 1], pat)
    requires ReplaceAll(u[1..] + pat + t, pat, rep) == u[1..] + rep + ReplaceAll(t, pat, rep)
    ensures ReplaceAll(u + pat + t, pat, rep) == u + rep + ReplaceAll(t, pat, rep)
  {
    NoOccurrenceAtStart(u, pat, t);
    ShiftByOne(u, pat, t);
    ReplaceSkipOnto(u + pat + t, pat, rep, u[1..] + rep, ReplaceAll(t, pat, rep));
    ConsBack(u, rep);
  }

  /** An occurrence of `pat` that is not at the start is replaced too: the scan
      copies what comes before the first occurrence, replaces it and carries on. */
  lemma {:induction false} ReplaceAfterFree(u: string, pat: string, t: string, rep: string)
    requires pat != [] && !Contains(u + pat[..|pat| - 1], pat)
    ensures ReplaceAll(u + pat + t, pat, rep) == u + rep + ReplaceAll(t, pat, rep)
    decreases |u|
  {
    if u == [] {
      assert u + pat + t == pat + t;
      ReplaceLeading(pat, t, rep);
    } else {
      NoOccurrenceAtStart(u, pat, t);
      ReplaceAfterFree(u[1..], pat, t, rep);
      ReplaceAfterFreeStep(u, pat, t, rep);
    }
  }
}
